=== FILE: README.md ===
# War card game, modelled in Dafny

This project models `war.py`, a simulation of the two-player card game War.
The model covers these parts:

- the two name tables (`CARD_TYPE` for suits, `CARD_VALUES` for ranks and their strengths);
- card construction with validation;
- building the 52-card deck and shuffling it;
- dealing it into two piles of 26;
- the round resolver `compare_cards_and_add`, with its recursive "war" escalation;
- the round and game state machine (`play_round`, `declare_winner`);
- the driver loop that plays until the game has ended.

Everything is a value. A card is a `Card(suit, rank)` datatype. A pile is a
`seq<Card>`: the front is the top of the pile and won cards go to the back.
The game is a `Game` record with both piles, the round counter, the round
limit and the `ended` flag. `play_round` is the pure transition `PlayRound`.
It returns the next game and the verdict when the call declared one.

Modules, one file each:

- `Wrappers` (`wrappers.dfy`): `Option` and `Result`.
- `Cards` (`cards.dfy`): suits, ranks, the name tables, `NewCard`, strength.
- `Deck` (`deck.dfy`): the canonical deck, `BuildDeck` (the nested loops of
  `CardsDeck.__init__`), `Shuffle`, and what a full deck is.
- `Resolver` (`resolver.dfy`): `Resolve`, which reproduces
  `compare_cards_and_add`. It has an iterative twin, `ResolveIteratively`.
  `DrawWar` is the war-draw loop as written.
- `Engine` (`engine.dfy`): `Game`, `NewGame`/`SetUpGame`, `PlayRound`, the
  verdict, and the driver loop `RunToEnd`.

Behaviour reproduced as the code has it:

- **Asymmetric tie-break.** When both sides stake four war cards, the next
  battle is the first side's fourth card (`first_draw[-1]`) against the
  second side's second card (`second_draw[1]`). `SecondSidesFourthCardIsIgnored`
  proves that the second side's fourth card never decides the round.
- **Equal short war draws go to the second pile.** When the war draws are
  short and equal, including when both are empty, the pool goes to the
  second pile (war.py:204-205, `TieStarved`).
- **`play_round` never consults `ended`.** It compares the round limit with
  the counter before it increments the counter (war.py:135-136), so the
  counter never passes a positive limit. With a limit of 0 or less, the
  counter stays at 0. After the game has ended, further calls can still
  raise the counter up to the limit. They never move a card
  (`EndedGameIsStable`).
- **Piles are compared by size only.** The verdict is decided by comparing
  pile sizes, and equal sizes are a tie.
- **Pile sizes after an unequal battle.** Both top cards are popped before
  they are compared. So after an unequal battle the winner ends one card
  up and the loser one card down (war.py:141-147, `UnequalBattle`).

The randomness is a parameter. `Shuffle` is a sequence of swaps from the
back of the deck, in Fisher–Yates order. `picks[i] <= i` is the random
position that position `i` is swapped with. Swaps of this kind can
produce any reordering. `NewGame` accepts any reordering of the canonical
deck.

## Model

| member | source | states |
|---|---|---|
| Cards.Value | war.py:4-18 | every rank has a strength between 2 and 14 |
| Cards.Strength | war.py:77-88 | a card's `value` (its rank's strength) lies between 2 and 14 |
| Cards.ParseSuit | war.py:29-30 | a suit name is accepted exactly when it is a key of `CARD_TYPE`, and then names the suit returned |
| Cards.ParseRank | war.py:31-32 | a rank name is accepted exactly when it is a key of `CARD_VALUES`, and then names the rank returned |
| Cards.NewCard | war.py:28-35 | building a card succeeds iff the suit name is in `CARD_TYPE` and the rank name is in `CARD_VALUES`, otherwise it fails with `InvalidCard`; the card keeps both names and its strength is the table's entry |
| Cards.ValueMatchesTable | war.py:4-18 | the strength of every rank is its entry in `CARD_VALUES`, and the table's keys are exactly the rank names |
| Cards.StrengthFollowsTableOrder | war.py:4-18 | the i-th table entry has strength i + 2, so strength strictly increases along the table (2-10 literal, J=11, Q=12, K=13, A=14) |
| Cards.SuitNameRoundTrip | war.py:20-25 | suit names parse back to their suit, and the suits follow the table's order |
| Cards.RankNameRoundTrip | war.py:4-18 | rank names parse back to their rank |
| Cards.TableNamesBuildCards | war.py:97-99 | building a card from any pair of table keys never fails |
| Deck.BuildDeck | war.py:94-99 | the nested loops over the table keys build exactly the canonical deck, suit by suit |
| Deck.CanonicalDeckIsExhaustive | war.py:97-99 | every (suit, rank) card is in the unshuffled deck |
| Deck.CanonicalDeckIsDistinct | war.py:97-99 | no card occurs twice in the unshuffled deck |
| Deck.CanonicalDeckIsFull | war.py:94-99 | the unshuffled deck has 52 cards, one per (suit, rank), no duplicates |
| Deck.Shuffle | war.py:108-109 | shuffling only reorders the deck: the multiset of cards is unchanged |
| Deck.ShuffledDeckIsFull | war.py:102-109 | any reordering of the canonical deck still holds each of the 52 cards exactly once |
| Resolver.WarDraw | war.py:184-190 | a side's war draw is the first min(4, size) cards of its pile, and the rest stays in order |
| Resolver.DrawWar | war.py:184-190 | the four-pass pop loop, alternating between the piles, draws exactly what `WarDraw` describes for each pile |
| Resolver.Resolve | war.py:162-206 | each pile gives up cards only from its front; the pot is the pool followed by exactly those cards; the winner's pile gets the whole pot at its back and the other keeps its remaining cards; each escalation takes four cards from each side |
| Resolver.EscalationSettles | war.py:195-200 | a settlement of the war after a full four-card stake settles the round that staked the cards |
| Resolver.ResolveConserves | war.py:177-206 | no card is created or lost: the piles afterwards hold exactly the cards of both piles and the pool |
| Resolver.HigherCardWins | war.py:177-182 | a strictly stronger battle card wins the pool outright, appended after the winner's pile; the other pile is untouched |
| Resolver.TieEscalates | war.py:184-200 | on a tie with at least four cards per pile, the first four of each pile are staked, first side's before second side's, and the round continues with the first side's 4th card against the second side's 2nd card |
| Resolver.AsymmetricTieBreak | war.py:195-200 | with four cards per pile and the first side's 4th card beating the second side's 2nd, the first side takes the whole pot and the second pile is emptied |
| Resolver.OutcomeIgnoresPool | war.py:195-206 | the winner, the number of escalations and the cards drawn do not depend on the cards already in the pool |
| Resolver.SecondSidesFourthCardIsIgnored | war.py:195-200 | after a full four-card stake, changing the second side's 4th card never changes who wins |
| Resolver.TieStarved | war.py:201-206 | on a tie where a pile has fewer than four cards, each side stakes min(4, size) cards, and the side that staked strictly more takes the pot; equal stakes, including none, go to the second side |
| Resolver.EscalationBound | war.py:195-200 | each escalation takes eight cards off the piles, so a round escalates at most (size1 + size2) / 8 times |
| Resolver.SettleLastLevel | war.py:177-206 | a round that does not escalate never counts a tie; a stronger battle card takes exactly the pool onto its pile's back; on a tie each side stakes min(4, size) cards, the pot is the pool then the first side's stake then the second side's, the first side wins iff it staked strictly more, and the winner's pile gets the pot while the other keeps its rest |
| Resolver.ResolveIteratively | war.py:162-206 | the recursion unrolled into a loop computes the same resolution as `Resolve` |
| Engine.NewGame | war.py:112-119 | a new game from a shuffled deck deals its first 26 cards to the first pile and the other 26 to the second; it starts at round 0, not ended, and satisfies the invariant |
| Engine.SetUpGame | war.py:112-119 | building, shuffling and dealing gives two 26-card piles that together hold each card exactly once |
| Engine.PlayRound | war.py:129-151 | below the limit the counter rises by one, otherwise it stays; a verdict is declared exactly when the limit was reached or a pile was empty, and then no card moves and the verdict compares the pile sizes; `ended` is set only by a declaration and never cleared; the cards of both piles together are unchanged; when a round is played, each pile loses cards only from its front (in order), the pot starts with the two top cards followed by exactly the staked cards, and exactly one pile receives the whole pot at its back while the other keeps only its remaining cards |
| Engine.PlayRoundPreservesValid | war.py:129-151 | every call keeps the invariant: the piles together are the 52-card deck, the counter stays within the limit, and an ended game stays finished |
| Engine.EndedGameIsStable | war.py:135-154 | once a game has ended, further calls keep it ended, never move a card, and announce the same verdict |
| Engine.UnequalBattle | war.py:141-147 | when the top cards differ in strength, the stronger side's pile becomes its tail followed by both top cards, the first side's card first; the weaker side's pile becomes its tail |
| Engine.Outcome | war.py:155-160 | the first side wins iff its pile is strictly larger, the second iff its pile is, and equal sizes are a tie; its partner `OutcomeBySize` shows that in a valid game this is a comparison with 26, half the deck |
| Engine.DeclareWinner | war.py:153-160 | declaring sets `ended`, leaves both piles, the counter and the limit unchanged, and announces the size-based verdict `Outcome` |
| Engine.OutcomeBySize | war.py:153-160 | in a valid game, the first side wins iff it holds more than 26 cards, the second side iff it does, and a tie means 26 each |
| Engine.RunToEnd | war.py:209-211 | the driver loop stops with the game ended, after at most as many calls as rounds remain plus one, with no card gained or lost |
| Engine.RunToEndPreservesValid | war.py:135-151 | the driver loop keeps the invariant to the end, and the final counter does not exceed the limit |
| Engine.NewGameEnds | war.py:209-211 | a new game ends within maxRounds + 1 calls, with at most maxRounds rounds counted |

## Left out

- Console output (`print` in `play_round`, `declare_winner` and `compare_cards_and_add`): narration only. The announced verdict and the escalation count `ties` stand in for it.
- `time.sleep` in the driver loop: it only paces the display.
- `random.shuffle`'s random source: the random positions are a parameter of `Shuffle`.
- `type_value` (the suit weights 0, 2, 4, 8 of `CARD_TYPE`) is never read in war.py; `Card.__str__` is a display string the game never prints.
- In-place mutation and aliasing of Python lists: piles and the pool are immutable sequences. The pool that war.py extends in place is returned as `pot`.
- The constructor's default `max_rounds=100`: `maxRounds` is always passed explicitly. The driver script's `WarGame(50)` is one choice of it.

=== FILE: cards.dfy ===
/** Playing cards of the War game: the two name tables of war.py, card
    construction with validation, and the strength of a card. */
module Cards {
  import opened Wrappers

  datatype Suit = Diamonds | Hearts | Spades | Clubs

  datatype Rank = Two | Three | Four | Five | Six | Seven | Eight | Nine | Ten
                | Jack | Queen | King | Ace

  /** A card is immutable; only its rank matters for play, the suit only
      makes the 52 cards of a deck distinct. */
  datatype Card = Card(suit: Suit, rank: Rank)

  /** The `ValueError` that `Card(type, name)` raises when a name is
      outside the tables. */
  datatype CardError = InvalidCard

  /** The keys of CARD_TYPE, in the table's iteration order. */
  const SuitNames: seq<string> := ["Diamonds", "Hearts", "Spades", "Clubs"]

  /** The keys of CARD_VALUES, in the table's iteration order. */
  const RankNames: seq<string> :=
    ["2", "3", "4", "5", "6", "7", "8", "9", "10", "J", "Q", "K", "A"]

  /** The strength table CARD_VALUES: rank name to strength. */
  const CardValues: map<string, int> :=
    map["2" := 2, "3" := 3, "4" := 4, "5" := 5, "6" := 6, "7" := 7, "8" := 8,
        "9" := 9, "10" := 10, "J" := 11, "Q" := 12, "K" := 13, "A" := 14]

  /** The suits and ranks in the same order as the name tables. */
  const Suits: seq<Suit> := [Diamonds, Hearts, Spades, Clubs]

  const Ranks: seq<Rank> :=
    [Two, Three, Four, Five, Six, Seven, Eight, Nine, Ten, Jack, Queen, King, Ace]

  function SuitName(s: Suit): string {
    match s
    case Diamonds => "Diamonds"
    case Hearts => "Hearts"
    case Spades => "Spades"
    case Clubs => "Clubs"
  }

  function RankName(r: Rank): string {
    match r
    case Two => "2"
    case Three => "3"
    case Four => "4"
    case Five => "5"
    case Six => "6"
    case Seven => "7"
    case Eight => "8"
    case Nine => "9"
    case Ten => "10"
    case Jack => "J"
    case Queen => "Q"
    case King => "K"
    case Ace => "A"
  }

  /** Strength of a rank, ace high. */
  function Value(r: Rank): (v: int)
    ensures 2 <= v <= 14
  {
    match r
    case Two => 2
    case Three => 3
    case Four => 4
    case Five => 5
    case Six => 6
    case Seven => 7
    case Eight => 8
    case Nine => 9
    case Ten => 10
    case Jack => 11
    case Queen => 12
    case King => 13
    case Ace => 14
  }

  /** The `value` property of a card. */
  function Strength(c: Card): (v: int)
    ensures 2 <= v <= 14
  {
    Value(c.rank)
  }

  /** Position of a suit in the CARD_TYPE table. */
  function SuitIndex(s: Suit): (i: nat)
    ensures i < |Suits| && Suits[i] == s
  {
    match s
    case Diamonds => 0
    case Hearts => 1
    case Spades => 2
    case Clubs => 3
  }

  /** Position of a rank in the CARD_VALUES table. */
  function RankIndex(r: Rank): (i: nat)
    ensures i < |Ranks| && Ranks[i] == r
  {
    Value(r) - 2
  }

  /** Looks a suit name up in CARD_TYPE. */
  function ParseSuit(name: string): (r: Option<Suit>)
    ensures r.Some? ==> SuitName(r.value) == name
    ensures r.None? <==> name !in SuitNames
  {
    if name == "Diamonds" then Some(Diamonds)
    else if name == "Hearts" then Some(Hearts)
    else if name == "Spades" then Some(Spades)
    else if name == "Clubs" then Some(Clubs)
    else None
  }

  /** Looks a rank name up in CARD_VALUES. */
  function ParseRank(name: string): (r: Option<Rank>)
    ensures r.Some? ==> RankName(r.value) == name
    ensures r.None? <==> name !in CardValues
  {
    if name == "2" then Some(Two)
    else if name == "3" then Some(Three)
    else if name == "4" then Some(Four)
    else if name == "5" then Some(Five)
    else if name == "6" then Some(Six)
    else if name == "7" then Some(Seven)
    else if name == "8" then Some(Eight)
    else if name == "9" then Some(Nine)
    else if name == "10" then Some(Ten)
    else if name == "J" then Some(Jack)
    else if name == "Q" then Some(Queen)
    else if name == "K" then Some(King)
    else if name == "A" then Some(Ace)
    else None
  }

  /** `Card(type, name)`: fails with InvalidCard unless the suit name is a key
      of CARD_TYPE and the rank name a key of CARD_VALUES. */
  function NewCard(suitName: string, rankName: string): (r: Result<Card, CardError>)
    ensures r.Ok? <==> suitName in SuitNames && rankName in CardValues
    ensures r.Ok? ==> SuitName(r.value.suit) == suitName && RankName(r.value.rank) == rankName
    ensures r.Ok? ==> Strength(r.value) == CardValues[rankName]
  {
    match ParseSuit(suitName)
    case None => Err(InvalidCard)
    case Some(s) =>
      match ParseRank(rankName)
      case None => Err(InvalidCard)
      case Some(k) => Ok(Card(s, k))
  }

  /** Every rank's name is a key of CARD_VALUES and its strength is the
      table's entry; every key of the table names a rank. */
  lemma ValueMatchesTable(r: Rank, name: string)
    ensures RankName(r) in CardValues && CardValues[RankName(r)] == Value(r)
    ensures name in CardValues <==> ParseRank(name).Some?
  {
  }

  /** The i-th entry of CARD_VALUES has strength i + 2, so strength is a
      strictly increasing, one-to-one function of the table position. */
  lemma StrengthFollowsTableOrder(i: int, j: int)
    requires 0 <= i < |Ranks| && 0 <= j < |Ranks|
    ensures Value(Ranks[i]) == i + 2
    ensures RankName(Ranks[i]) == RankNames[i]
    ensures i < j <==> Value(Ranks[i]) < Value(Ranks[j])
  {
  }

  /** Round trip between suits and their names. */
  lemma SuitNameRoundTrip(s: Suit, i: int)
    ensures ParseSuit(SuitName(s)) == Some(s)
    ensures 0 <= i < |Suits| ==> SuitName(Suits[i]) == SuitNames[i]
  {
  }

  /** Round trip between ranks and their names. */
  lemma RankNameRoundTrip(r: Rank)
    ensures ParseRank(RankName(r)) == Some(r)
  {
  }

  /** SuitIndex and RankIndex invert the table orders. */
  lemma IndexOfTableEntry(i: int, j: int)
    requires 0 <= i < |Suits| && 0 <= j < |Ranks|
    ensures SuitIndex(Suits[i]) == i && RankIndex(Ranks[j]) == j
  {
  }

  /** Names taken from the two tables always build a card. */
  lemma TableNamesBuildCards(i: int, j: int)
    requires 0 <= i < |SuitNames| && 0 <= j < |RankNames|
    ensures NewCard(SuitNames[i], RankNames[j]) == Ok(Card(Suits[i], Ranks[j]))
  {
  }
}

=== FILE: deck.dfy ===
/** The 52-card deck of CardsDeck: its construction from the name tables,
    the shuffle, and what it means to be a full deck. */
module Deck {
  import opened Cards

  const DeckSize: nat := 52

  /** The deck in construction order: every rank of Diamonds, then of Hearts,
      of Spades and of Clubs. */
  function CanonicalDeck(): seq<Card> {
    seq(DeckSize, k requires 0 <= k < DeckSize => Card(Suits[k / 13], Ranks[k % 13]))
  }

  predicate Distinct(d: seq<Card>) {
    forall i, j :: 0 <= i < j < |d| ==> d[i] != d[j]
  }

  /** Exactly one card for each (suit, rank) pair. */
  ghost predicate IsFullDeck(d: seq<Card>) {
    |d| == DeckSize && Distinct(d) && forall c: Card :: c in d
  }

  /** A reordering of the canonical deck, as produced by a shuffle. */
  predicate IsShuffledDeck(d: seq<Card>) {
    multiset(d) == multiset(CanonicalDeck())
  }

  /** The canonical deck holds card c at position 13 * suit index + rank index. */
  lemma CanonicalDeckAt(c: Card)
    ensures 13 * SuitIndex(c.suit) + RankIndex(c.rank) < DeckSize
    ensures CanonicalDeck()[13 * SuitIndex(c.suit) + RankIndex(c.rank)] == c
  {
    var k := 13 * SuitIndex(c.suit) + RankIndex(c.rank);
    assert k / 13 == SuitIndex(c.suit) && k % 13 == RankIndex(c.rank);
  }

  /** The unshuffled deck holds every card. */
  lemma CanonicalDeckIsExhaustive(c: Card)
    ensures c in CanonicalDeck()
  {
    CanonicalDeckAt(c);
  }

  /** The unshuffled deck holds no card twice. */
  lemma CanonicalDeckIsDistinct()
    ensures Distinct(CanonicalDeck())
  {
    var d := CanonicalDeck();
    forall i, j | 0 <= i < j < |d|
      ensures d[i] != d[j]
    {
      CanonicalDeckPosition(i);
      CanonicalDeckPosition(j);
    }
  }

  /** Position k of the canonical deck is recovered from the card found there. */
  lemma CanonicalDeckPosition(k: int)
    requires 0 <= k < DeckSize
    ensures 13 * SuitIndex(CanonicalDeck()[k].suit) + RankIndex(CanonicalDeck()[k].rank) == k
  {
    var c := CanonicalDeck()[k];
    assert c == Card(Suits[k / 13], Ranks[k % 13]);
    IndexOfTableEntry(k / 13, k % 13);
  }

  /** The unshuffled deck has 52 cards, one per (suit, rank), no duplicates. */
  lemma CanonicalDeckIsFull()
    ensures IsFullDeck(CanonicalDeck())
  {
    forall c: Card
      ensures c in CanonicalDeck()
    {
      CanonicalDeckIsExhaustive(c);
    }
    CanonicalDeckIsDistinct();
  }

  /** The card built at step (i, j) of the nested construction loops. */
  lemma CanonicalDeckEntry(i: int, j: int)
    requires 0 <= i < |Suits| && 0 <= j < |Ranks|
    ensures 13 * i + j < DeckSize
    ensures CanonicalDeck()[..13 * i + j + 1] == CanonicalDeck()[..13 * i + j] + [Card(Suits[i], Ranks[j])]
  {
    assert (13 * i + j) / 13 == i && (13 * i + j) % 13 == j;
    assert CanonicalDeck()[13 * i + j] == Card(Suits[i], Ranks[j]);
  }

  /** CardsDeck.__init__ before the shuffle: one card per pair of table keys,
      suits in the outer loop and ranks in the inner one. */
  method BuildDeck() returns (deck: seq<Card>)
    ensures deck == CanonicalDeck()
  {
    deck := [];
    var i := 0;
    while i < |SuitNames|
      invariant 0 <= i <= |SuitNames|
      invariant deck == CanonicalDeck()[..13 * i]
    {
      var j := 0;
      while j < |RankNames|
        invariant 0 <= j <= |RankNames|
        invariant deck == CanonicalDeck()[..13 * i + j]
      {
        TableNamesBuildCards(i, j);
        var card := NewCard(SuitNames[i], RankNames[j]);
        CanonicalDeckEntry(i, j);
        deck := deck + [card.value];
        j := j + 1;
      }
      i := i + 1;
    }
  }

  /** random.shuffle as a sequence of swaps from the back (Fisher-Yates); the
      random choices are the parameter: position i is swapped with picks[i]. */
  method Shuffle(deck: seq<Card>, picks: seq<nat>) returns (s: seq<Card>)
    requires |picks| == |deck|
    requires forall i :: 0 <= i < |picks| ==> picks[i] <= i
    ensures multiset(s) == multiset(deck)
  {
    s := deck;
    var i := |deck| - 1;
    while i > 0
      invariant |s| == |deck|
      invariant i < |deck|
      invariant multiset(s) == multiset(deck)
    {
      var j := picks[i];
      s := s[i := s[j]][j := s[i]];
      i := i - 1;
    }
  }

  lemma {:induction false} DistinctCount(s: seq<Card>, c: Card)
    requires Distinct(s)
    ensures multiset(s)[c] <= 1
  {
    if s != [] {
      assert s == [s[0]] + s[1..];
      assert Distinct(s[1..]) by {
        forall i, j | 0 <= i < j < |s[1..]| ensures s[1..][i] != s[1..][j] {
          assert s[1..][i] == s[i + 1] && s[1..][j] == s[j + 1];
        }
      }
      DistinctCount(s[1..], c);
      if s[0] == c {
        assert c !in s[1..] by {
          forall k | 0 <= k < |s[1..]| ensures s[1..][k] != c {
            assert s[1..][k] == s[k + 1];
          }
        }
      }
    }
  }

  /** Any reordering of the canonical deck is again a full deck: the
      shuffle neither loses nor duplicates a card. */
  lemma ShuffledDeckIsFull(d: seq<Card>)
    requires IsShuffledDeck(d)
    ensures IsFullDeck(d)
  {
    var canon := CanonicalDeck();
    CanonicalDeckIsFull();
    assert |d| == |multiset(d)| == |multiset(canon)| == DeckSize;
    forall c: Card
      ensures c in d
    {
      assert c in canon;
      assert c in multiset(canon);
    }
    forall i, j | 0 <= i < j < |d|
      ensures d[i] != d[j]
    {
      if d[i] == d[j] {
        var c := d[i];
        assert d == d[..j] + d[j..];
        assert c in d[..j] && c in d[j..];
        assert multiset(d)[c] == multiset(d[..j])[c] + multiset(d[j..])[c];
        DistinctCount(canon, c);
        assert false;
      }
    }
  }
}

=== FILE: engine.dfy ===
/** The game of war.py (`WarGame`): two piles dealt from a shuffled deck, a
    round counter bounded by a maximum, an `ended` flag, and the verdict
    decided by pile sizes. */
module Engine {
  import opened Wrappers
  import opened Cards
  import opened Deck
  import opened Resolver

  /** Cards dealt to each pile. */
  const PileSize: nat := 26

  datatype Verdict = FirstWins | SecondWins | Tie

  datatype Game = Game(first: seq<Card>, second: seq<Card>, rounds: nat, maxRounds: int, ended: bool)

  /** The state after one call of `play_round`, and the verdict if the call
      declared one. */
  datatype Turn = Turn(game: Game, announced: Option<Verdict>)

  /** The conditions under which `play_round` declares a winner instead of
      playing. */
  predicate Finished(g: Game) {
    g.rounds >= g.maxRounds || |g.first| == 0 || |g.second| == 0
  }

  /** The game's invariant: the two piles together are the deck, the round
      counter never passes the limit (it stays 0 when the limit is not
      positive), and an ended game stays finished. */
  predicate Valid(g: Game) {
    multiset(g.first + g.second) == multiset(CanonicalDeck())
    && (g.rounds <= g.maxRounds || g.rounds == 0)
    && (g.ended ==> Finished(g))
  }

  /** `WarGame.__init__` after the deck is shuffled: the first 26 cards form
      the first pile and the rest the second. */
  function NewGame(deck: seq<Card>, maxRounds: int): (g: Game)
    requires IsShuffledDeck(deck)
    ensures Valid(g) && !g.ended && g.rounds == 0 && g.maxRounds == maxRounds
    ensures g.first + g.second == deck && |g.first| == PileSize && |g.second| == PileSize
  {
    assert |deck| == |multiset(deck)| == |multiset(CanonicalDeck())| == DeckSize;
    assert deck[..PileSize] + deck[PileSize..] == deck;
    Game(deck[..PileSize], deck[PileSize..], 0, maxRounds, false)
  }

  /** `WarGame.__init__` in full: build the deck, shuffle it with the given
      random choices, and deal it. */
  method SetUpGame(picks: seq<nat>, maxRounds: int) returns (g: Game)
    requires |picks| == DeckSize
    requires forall i :: 0 <= i < |picks| ==> picks[i] <= i
    ensures Valid(g) && !g.ended && g.rounds == 0 && g.maxRounds == maxRounds
    ensures |g.first| == PileSize && |g.second| == PileSize
    ensures IsFullDeck(g.first + g.second)
  {
    var deck := BuildDeck();
    deck := Shuffle(deck, picks);
    g := NewGame(deck, maxRounds);
    ShuffledDeckIsFull(deck);
  }

  /** The verdict of `declare_winner`: the larger pile wins, and piles of
      equal size are a tie. */
  function Outcome(g: Game): (v: Verdict)
    ensures v == FirstWins <==> |g.first| > |g.second|
    ensures v == SecondWins <==> |g.second| > |g.first|
    ensures v == Tie <==> |g.first| == |g.second|
  {
    if |g.first| > |g.second| then FirstWins
    else if |g.first| < |g.second| then SecondWins
    else Tie
  }

  /** `declare_winner`: end the game and announce the verdict; nothing
      else changes. */
  function DeclareWinner(g: Game): (t: Turn)
    ensures t.game.ended
    ensures t.game.first == g.first && t.game.second == g.second
    ensures t.game.rounds == g.rounds && t.game.maxRounds == g.maxRounds
    ensures t.announced == Some(Outcome(g))
  {
    Turn(g.(ended := true), Some(Outcome(g)))
  }

  /** `play_round`. Below the round limit the counter goes up and, when both
      piles hold cards, their top cards are battled; otherwise the winner is
      declared. The `ended` flag is not consulted. */
  function PlayRound(g: Game): (t: Turn)
    ensures t.game.maxRounds == g.maxRounds
    ensures t.game.rounds == if g.rounds < g.maxRounds then g.rounds + 1 else g.rounds
    ensures t.announced.Some? <==> Finished(g)
    ensures t.announced.Some? ==>
      t.game.first == g.first && t.game.second == g.second && t.announced.value == Outcome(g)
    ensures t.game.ended == (g.ended || t.announced.Some?)
    ensures multiset(t.game.first + t.game.second) == multiset(g.first + g.second)
    ensures !Finished(g) ==>
      exists r :: Settles(g.first[1..], g.second[1..], [g.first[0], g.second[0]], r)
        && t.game.first == r.first && t.game.second == r.second
  {
    if g.rounds < g.maxRounds then
      var g1 := g.(rounds := g.rounds + 1);
      if |g.first| > 0 && |g.second| > 0 then
        var a, b := g.first[0], g.second[0];
        var r := Resolve(g.first[1..], g.second[1..], a, b, [a, b]);
        ResolveConserves(g.first[1..], g.second[1..], a, b, [a, b]);
        TopCardsRejoin(g.first, g.second);
        Turn(g1.(first := r.first, second := r.second), None)
      else
        DeclareWinner(g1)
    else
      DeclareWinner(g)
  }

  /** The two top cards put back with both tails are the same cards. */
  lemma TopCardsRejoin(first: seq<Card>, second: seq<Card>)
    requires |first| > 0 && |second| > 0
    ensures multiset(first[1..] + second[1..] + [first[0], second[0]]) == multiset(first + second)
  {
    assert first == [first[0]] + first[1..] && second == [second[0]] + second[1..];
  }

  /** Every call keeps the game's invariant; in particular the piles always
      hold the 52 cards of the deck between them. */
  lemma PlayRoundPreservesValid(g: Game)
    requires Valid(g)
    ensures Valid(PlayRound(g).game)
  {
  }

  /** Once ended, a game stays ended and further calls never move a card:
      they only announce the same verdict again. */
  lemma EndedGameIsStable(g: Game)
    requires Valid(g) && g.ended
    ensures var t := PlayRound(g);
      t.game.ended && t.game.first == g.first && t.game.second == g.second
      && t.announced == Some(Outcome(g))
  {
  }

  /** A round whose top cards differ in strength moves both to the back of
      the stronger side's pile, the first side's card first; the weaker
      side loses its top card. */
  lemma UnequalBattle(g: Game)
    requires g.rounds < g.maxRounds && |g.first| > 0 && |g.second| > 0
    requires Strength(g.first[0]) != Strength(g.second[0])
    ensures var t := PlayRound(g);
      var a, b := g.first[0], g.second[0];
      t.announced == None && !Finished(g) &&
      (Strength(a) > Strength(b) ==>
        t.game.first == g.first[1..] + [a, b] && t.game.second == g.second[1..]) &&
      (Strength(a) < Strength(b) ==>
        t.game.first == g.first[1..] && t.game.second == g.second[1..] + [a, b])
  {
    HigherCardWins(g.first[1..], g.second[1..], g.first[0], g.second[0], [g.first[0], g.second[0]]);
  }

  /** With all 52 cards in play, the verdict is decided against half the
      deck: the first side wins exactly when it holds more than 26 cards,
      and the game is a tie exactly when both hold 26. */
  lemma OutcomeBySize(g: Game)
    requires Valid(g)
    ensures Outcome(g) == FirstWins <==> |g.first| > PileSize
    ensures Outcome(g) == SecondWins <==> |g.second| > PileSize
    ensures Outcome(g) == Tie <==> |g.first| == PileSize && |g.second| == PileSize
  {
    calc {
      |g.first| + |g.second|;
      |multiset(g.first + g.second)|;
      |multiset(CanonicalDeck())|;
      DeckSize;
    }
  }

  /** An upper bound on the calls the driver loop still makes. */
  function CallsLeft(g: Game): nat {
    (if g.ended then 0 else 1) + (if g.rounds < g.maxRounds then g.maxRounds - g.rounds else 0)
  }

  /** The driver loop `while not game.ended: game.play_round()` (without its
      pacing delay): the final game and the number of calls made. */
  function RunToEnd(g: Game): (r: (Game, nat))
    ensures r.0.ended
    ensures r.1 <= CallsLeft(g)
    ensures r.0.maxRounds == g.maxRounds
    ensures multiset(r.0.first + r.0.second) == multiset(g.first + g.second)
    decreases CallsLeft(g)
  {
    if g.ended then
      (g, 0)
    else
      var r := RunToEnd(PlayRound(g).game);
      (r.0, r.1 + 1)
  }

  /** The driver loop keeps the game's invariant all the way to the end, so
      the round counter never passes the limit. */
  lemma {:induction false} RunToEndPreservesValid(g: Game)
    requires Valid(g)
    ensures Valid(RunToEnd(g).0)
    ensures RunToEnd(g).0.rounds <= (if g.maxRounds > g.rounds then g.maxRounds else g.rounds)
    decreases CallsLeft(g)
  {
    if !g.ended {
      PlayRoundPreservesValid(g);
      RunToEndPreservesValid(PlayRound(g).game);
    }
  }

  /** A new game ends within maxRounds + 1 calls (one call when the limit is
      not positive) and ends with the deck still split between the piles. */
  lemma NewGameEnds(deck: seq<Card>, maxRounds: int)
    requires IsShuffledDeck(deck)
    ensures var r := RunToEnd(NewGame(deck, maxRounds));
      r.0.ended && Valid(r.0)
      && r.1 <= (if maxRounds > 0 then maxRounds else 0) + 1
      && r.0.rounds <= (if maxRounds > 0 then maxRounds else 0)
  {
    RunToEndPreservesValid(NewGame(deck, maxRounds));
  }
}

=== FILE: resolver.dfy ===
/** Round resolution of war.py (`compare_cards_and_add`): two battle cards
    are compared; a tie starts a war in which each side stakes up to four
    more cards, and a war between two full stakes escalates recursively. */
module Resolver {
  import opened Cards

  datatype Side = First | Second

  /** The outcome of resolving one round.
      winner  the pile that received the contested pool
      first, second  both piles afterwards
      pot     the whole contested pool (the `cards` list, which war.py
              extends in place)
      drawn1, drawn2  how many cards the wars took off the front of each pile
      ties    how many times the war escalated (each a "Tie" announcement) */
  datatype Resolution = Resolution(
    winner: Side,
    first: seq<Card>,
    second: seq<Card>,
    pot: seq<Card>,
    drawn1: nat,
    drawn2: nat,
    ties: nat)

  /** Cards each side stakes in a war. */
  const WarStake: nat := 4

  /** The next battle after a full stake: the first side's last war card
      against the second side's war card at position 1 (its second). */
  const LastWarCard: nat := WarStake - 1
  const SecondSideBattleCard: nat := 1

  function Min(a: int, b: int): int {
    if a < b then a else b
  }

  /** One side's war draw: it stops early when the pile runs out. */
  function WarDraw(pile: seq<Card>): (d: (seq<Card>, seq<Card>))
    ensures d.0 + d.1 == pile
    ensures |d.0| == Min(WarStake, |pile|)
  {
    var n := Min(WarStake, |pile|);
    (pile[..n], pile[n..])
  }

  /** The war-draw loop as war.py writes it: four passes, each popping
      the front of the first pile and then of the second while they last. */
  method DrawWar(first: seq<Card>, second: seq<Card>)
    returns (firstDraw: seq<Card>, firstRest: seq<Card>, secondDraw: seq<Card>, secondRest: seq<Card>)
    ensures (firstDraw, firstRest) == WarDraw(first)
    ensures (secondDraw, secondRest) == WarDraw(second)
  {
    firstDraw, firstRest := [], first;
    secondDraw, secondRest := [], second;
    var k := 0;
    while k < WarStake
      invariant 0 <= k <= WarStake
      invariant firstDraw == first[..Min(k, |first|)] && firstRest == first[Min(k, |first|)..]
      invariant secondDraw == second[..Min(k, |second|)] && secondRest == second[Min(k, |second|)..]
    {
      if |firstRest| > 0 {
        assert first[..k + 1] == firstDraw + [firstRest[0]];
        firstDraw, firstRest := firstDraw + [firstRest[0]], firstRest[1..];
      }
      if |secondRest| > 0 {
        assert second[..k + 1] == secondDraw + [secondRest[0]];
        secondDraw, secondRest := secondDraw + [secondRest[0]], secondRest[1..];
      }
      k := k + 1;
    }
  }

  /** Taking the staked cards and then m more is taking WarStake + m. */
  lemma SplitAfterStake(s: seq<Card>, m: nat)
    requires WarStake + m <= |s|
    ensures s[..WarStake + m] == s[..WarStake] + s[WarStake..][..m]
    ensures s[WarStake + m..] == s[WarStake..][m..]
  {
  }

  /** What it means for r to settle a round played from the piles first and
      second with pool on the table: each pile gave up cards only from its
      front (drawn1 and drawn2 of them, in order), the pot is the pool
      followed by exactly those cards, the winner's pile gets the whole pot
      at its back and the other pile keeps just its remaining cards, and
      every escalation took four cards from each pile. */
  predicate Settles(first: seq<Card>, second: seq<Card>, pool: seq<Card>, r: Resolution) {
    r.drawn1 <= |first| && r.drawn2 <= |second|
    && pool <= r.pot
    && multiset(r.pot) == multiset(pool) + multiset(first[..r.drawn1]) + multiset(second[..r.drawn2])
    && (r.winner == First ==> r.first == first[r.drawn1..] + r.pot && r.second == second[r.drawn2..])
    && (r.winner == Second ==> r.first == first[r.drawn1..] && r.second == second[r.drawn2..] + r.pot)
    && WarStake * r.ties <= r.drawn1 <= WarStake * r.ties + WarStake
    && WarStake * r.ties <= r.drawn2 <= WarStake * r.ties + WarStake
  }

  /** The resolution with `ties`, `drawn1` and `drawn2` counted from an
      outer level that has already taken d1 and d2 cards and escalated t times. */
  function Shifted(r: Resolution, d1: nat, d2: nat, t: nat): Resolution {
    r.(drawn1 := r.drawn1 + d1, drawn2 := r.drawn2 + d2, ties := r.ties + t)
  }

  /** A settlement of the war that follows a full stake of four cards per
      side settles the round that staked them. */
  lemma EscalationSettles(first: seq<Card>, second: seq<Card>, pool: seq<Card>, inner: Resolution)
    requires |first| >= WarStake && |second| >= WarStake
    requires Settles(first[WarStake..], second[WarStake..], pool + first[..WarStake] + second[..WarStake], inner)
    ensures Settles(first, second, pool, Shifted(inner, WarStake, WarStake, 1))
  {
    SplitAfterStake(first, inner.drawn1);
    SplitAfterStake(second, inner.drawn2);
  }

  /** Resolves a round whose battle cards a (first side) and b (second side)
      have been drawn, with pool on the table. */
  function Resolve(first: seq<Card>, second: seq<Card>, a: Card, b: Card, pool: seq<Card>): (r: Resolution)
    ensures Settles(first, second, pool, r)
    decreases |first| + |second|
  {
    if Strength(a) > Strength(b) then
      Resolution(First, first + pool, second, pool, 0, 0, 0)
    else if Strength(a) < Strength(b) then
      Resolution(Second, first, second + pool, pool, 0, 0, 0)
    else
      var (draw1, rest1) := WarDraw(first);
      var (draw2, rest2) := WarDraw(second);
      var pot := pool + draw1 + draw2;
      if |draw1| == WarStake && |draw2| == WarStake then
        // the next battle is the first side's last war card against the
        // second side's second war card
        var r := Resolve(rest1, rest2, draw1[LastWarCard], draw2[SecondSideBattleCard], pot);
        EscalationSettles(first, second, pool, r);
        Shifted(r, WarStake, WarStake, 1)
      else if |draw1| > |draw2| then
        Resolution(First, rest1 + pot, rest2, pot, |draw1|, |draw2|, 0)
      else
        Resolution(Second, rest1, rest2 + pot, pot, |draw1|, |draw2|, 0)
  }

  /** No card is created or lost: the two piles afterwards hold exactly the
      cards of both piles and the pool before. */
  lemma ResolveConserves(first: seq<Card>, second: seq<Card>, a: Card, b: Card, pool: seq<Card>)
    ensures var r := Resolve(first, second, a, b, pool);
      multiset(r.first + r.second) == multiset(first + second + pool)
    ensures var r := Resolve(first, second, a, b, pool);
      |r.first| + |r.second| == |first| + |second| + |pool|
  {
    var r := Resolve(first, second, a, b, pool);
    Regroup(first, second, pool, r.pot, r.drawn1, r.drawn2, r.winner == First, r.first, r.second);
  }

  /** Cards moved from the fronts of two piles into a pot that then goes to
      the back of one of them are the same cards as before. */
  lemma Regroup(first: seq<Card>, second: seq<Card>, pool: seq<Card>, pot: seq<Card>,
                k1: nat, k2: nat, toFirst: bool, first': seq<Card>, second': seq<Card>)
    requires k1 <= |first| && k2 <= |second|
    requires multiset(pot) == multiset(pool) + multiset(first[..k1]) + multiset(second[..k2])
    requires toFirst ==> first' == first[k1..] + pot && second' == second[k2..]
    requires !toFirst ==> first' == first[k1..] && second' == second[k2..] + pot
    ensures multiset(first' + second') == multiset(first + second + pool)
    ensures |first'| + |second'| == |first| + |second| + |pool|
  {
    assert first == first[..k1] + first[k1..];
    assert second == second[..k2] + second[k2..];
    assert multiset(first' + second') == multiset(first[k1..]) + multiset(second[k2..]) + multiset(pot);
    assert |multiset(first' + second')| == |first' + second'|;
    assert |multiset(first + second + pool)| == |first + second + pool|;
  }

  /** A strictly stronger battle card wins the pool outright. */
  lemma HigherCardWins(first: seq<Card>, second: seq<Card>, a: Card, b: Card, pool: seq<Card>)
    requires Strength(a) != Strength(b)
    ensures var r := Resolve(first, second, a, b, pool);
      r.pot == pool && r.ties == 0 &&
      (Strength(a) > Strength(b) ==> r.winner == First && r.first == first + pool && r.second == second) &&
      (Strength(a) < Strength(b) ==> r.winner == Second && r.first == first && r.second == second + pool)
  {
  }

  /** A tie with both piles holding at least four cards stakes exactly the
      first four cards of each pile, first side's before second side's, and
      continues with the first side's fourth card against the second side's
      second card. */
  lemma TieEscalates(first: seq<Card>, second: seq<Card>, a: Card, b: Card, pool: seq<Card>)
    requires Strength(a) == Strength(b)
    requires |first| >= WarStake && |second| >= WarStake
    ensures var r := Resolve(first, second, a, b, pool);
      var next := Resolve(first[WarStake..], second[WarStake..], first[LastWarCard], second[SecondSideBattleCard], pool + first[..WarStake] + second[..WarStake]);
      r == Shifted(next, WarStake, WarStake, 1)
  {
  }

  /** The escalated battle is the first side's fourth war card against the
      second side's second one: when both piles hold exactly four cards and
      that battle is won by the first side, the first side takes everything,
      whatever the second side's fourth card is. */
  lemma AsymmetricTieBreak(first: seq<Card>, second: seq<Card>, a: Card, b: Card, pool: seq<Card>)
    requires Strength(a) == Strength(b)
    requires |first| == WarStake && |second| == WarStake
    requires Strength(first[LastWarCard]) > Strength(second[SecondSideBattleCard])
    ensures var r := Resolve(first, second, a, b, pool);
      r.winner == First && r.ties == 1 && r.first == pool + first + second && r.second == []
  {
    TieEscalates(first, second, a, b, pool);
    assert first[..WarStake] == first && second[..WarStake] == second;
    HigherCardWins(first[WarStake..], second[WarStake..], first[LastWarCard], second[SecondSideBattleCard], pool + first + second);
  }

  /** Who wins a round, how far it escalates and how many cards it takes do
      not depend on the cards already in the pool. */
  lemma {:induction false} OutcomeIgnoresPool(first: seq<Card>, second: seq<Card>, a: Card, b: Card, pool: seq<Card>, pool': seq<Card>)
    ensures var r, r' := Resolve(first, second, a, b, pool), Resolve(first, second, a, b, pool');
      r.winner == r'.winner && r.drawn1 == r'.drawn1 && r.drawn2 == r'.drawn2 && r.ties == r'.ties
    decreases |first| + |second|
  {
    if Strength(a) == Strength(b) && |first| >= WarStake && |second| >= WarStake {
      TieEscalates(first, second, a, b, pool);
      TieEscalates(first, second, a, b, pool');
      OutcomeIgnoresPool(first[WarStake..], second[WarStake..], first[LastWarCard], second[SecondSideBattleCard],
        pool + first[..WarStake] + second[..WarStake], pool' + first[..WarStake] + second[..WarStake]);
    }
  }

  /** The quirk of the tie-break: in a war where both sides stake four
      cards, the second side's fourth card never decides who wins. */
  lemma SecondSidesFourthCardIsIgnored(first: seq<Card>, second: seq<Card>, a: Card, b: Card, pool: seq<Card>, c: Card)
    requires Strength(a) == Strength(b)
    requires |first| >= WarStake && |second| >= WarStake
    ensures Resolve(first, second[LastWarCard := c], a, b, pool).winner == Resolve(first, second, a, b, pool).winner
  {
    var second' := second[LastWarCard := c];
    TieEscalates(first, second, a, b, pool);
    TieEscalates(first, second', a, b, pool);
    assert second'[WarStake..] == second[WarStake..] && second'[SecondSideBattleCard] == second[SecondSideBattleCard];
    OutcomeIgnoresPool(first[WarStake..], second[WarStake..], first[LastWarCard], second[SecondSideBattleCard],
      pool + first[..WarStake] + second[..WarStake], pool + first[..WarStake] + second'[..WarStake]);
  }

  /** A tie in which some pile holds fewer than four cards ends the round:
      each side stakes what it has (up to four), and the side that staked
      more takes the pool; equal stakes, including none at all, go to the
      second side. */
  lemma TieStarved(first: seq<Card>, second: seq<Card>, a: Card, b: Card, pool: seq<Card>)
    requires Strength(a) == Strength(b)
    requires |first| < WarStake || |second| < WarStake
    ensures var r := Resolve(first, second, a, b, pool);
      var n1 := Min(WarStake, |first|);
      var n2 := Min(WarStake, |second|);
      r.ties == 0 && r.drawn1 == n1 && r.drawn2 == n2 &&
      r.pot == pool + first[..n1] + second[..n2] &&
      (r.winner == First <==> n1 > n2)
  {
  }

  /** The escalation bound: every war level takes four cards off each pile,
      so a round escalates at most (|first| + |second|) / 8 times. */
  lemma EscalationBound(first: seq<Card>, second: seq<Card>, a: Card, b: Card, pool: seq<Card>)
    ensures 2 * WarStake * Resolve(first, second, a, b, pool).ties <= |first| + |second|
  {
    var r := Resolve(first, second, a, b, pool);
    assert WarStake * r.ties <= r.drawn1 <= |first|;
    assert WarStake * r.ties <= r.drawn2 <= |second|;
  }

  /** The last level of a round, where no further war escalates: a stronger
      battle card, or a tie that one side cannot stake in full. */
  method SettleLastLevel(first: seq<Card>, second: seq<Card>, a: Card, b: Card, pool: seq<Card>)
    returns (r: Resolution)
    requires Strength(a) != Strength(b) || |first| < WarStake || |second| < WarStake
    ensures r.ties == 0
    ensures Strength(a) > Strength(b) ==>
      r.winner == First && r.pot == pool && r.first == first + pool && r.second == second
    ensures Strength(a) < Strength(b) ==>
      r.winner == Second && r.pot == pool && r.first == first && r.second == second + pool
    ensures Strength(a) == Strength(b) ==>
      var n1, n2 := Min(WarStake, |first|), Min(WarStake, |second|);
      r.pot == pool + first[..n1] + second[..n2]
      && (r.winner == First <==> n1 > n2)
      && (r.winner == First ==> r.first == first[n1..] + r.pot && r.second == second[n2..])
      && (r.winner == Second ==> r.first == first[n1..] && r.second == second[n2..] + r.pot)
    ensures r == Resolve(first, second, a, b, pool)
  {
    if Strength(a) > Strength(b) {
      r := Resolution(First, first + pool, second, pool, 0, 0, 0);
    } else if Strength(a) < Strength(b) {
      r := Resolution(Second, first, second + pool, pool, 0, 0, 0);
    } else {
      var draw1, rest1, draw2, rest2 := DrawWar(first, second);
      var pot := pool + draw1 + draw2;
      if |draw1| > |draw2| {
        r := Resolution(First, rest1 + pot, rest2, pot, |draw1|, |draw2|, 0);
      } else {
        r := Resolution(Second, rest1, rest2 + pot, pot, |draw1|, |draw2|, 0);
      }
    }
  }

  /** One pass of the escalation loop describes the same round. */
  lemma EscalationStep(p1: seq<Card>, p2: seq<Card>, x: Card, y: Card, pot: seq<Card>, d1: nat, d2: nat, t: nat)
    requires Strength(x) == Strength(y) && |p1| >= WarStake && |p2| >= WarStake
    ensures Shifted(Resolve(p1, p2, x, y, pot), d1, d2, t)
      == Shifted(Resolve(p1[WarStake..], p2[WarStake..], p1[LastWarCard], p2[SecondSideBattleCard], pot + p1[..WarStake] + p2[..WarStake]), d1 + WarStake, d2 + WarStake, t + 1)
  {
    TieEscalates(p1, p2, x, y, pot);
  }

  /** The recursion of Resolve unrolled into a loop: escalate while the
      battle cards tie and both piles can stake four cards, then settle. */
  method ResolveIteratively(first: seq<Card>, second: seq<Card>, a: Card, b: Card, pool: seq<Card>)
    returns (r: Resolution)
    ensures r == Resolve(first, second, a, b, pool)
  {
    var p1, p2, x, y, pot := first, second, a, b, pool;
    var d1: nat, d2: nat, t: nat := 0, 0, 0;
    while Strength(x) == Strength(y) && |p1| >= WarStake && |p2| >= WarStake
      invariant Shifted(Resolve(p1, p2, x, y, pot), d1, d2, t) == Resolve(first, second, a, b, pool)
      decreases |p1| + |p2|
    {
      var draw1, rest1, draw2, rest2 := DrawWar(p1, p2);
      EscalationStep(p1, p2, x, y, pot, d1, d2, t);
      pot := pot + draw1 + draw2;
      x, y := draw1[LastWarCard], draw2[SecondSideBattleCard];
      p1, p2 := rest1, rest2;
      d1, d2, t := d1 + WarStake, d2 + WarStake, t + 1;
    }
    var last := SettleLastLevel(p1, p2, x, y, pot);
    r := Shifted(last, d1, d2, t);
  }
}

=== FILE: wrappers.dfy ===
/** Optional values and error-carrying results, used where the game can fail
    (an invalid card name) or may or may not announce something (a verdict). */
module Wrappers {

  datatype Option<+T> = None | Some(value: T)

  datatype Result<+T, +E> = Ok(value: T) | Err(error: E)
}
